=== FILE: README.md ===
# Webcam streaming views, modelled in Dafny

This project models the core of a small Django webcam application: the
views module that owns the one global capture device, the generator that
turns camera frames into a `multipart/x-mixed-replace` live feed, and the
five request handlers (`index`, `video_feed`, `capture`, `start_stream`,
`stop_stream`) that read and write one client's `streaming` session flag and
open or release the device.

Modules (one concept each, importing only each other):

- `Wrappers` (`wrappers.dfy`): `Option`, used for the session value that may
  be missing, an exception that may have been raised, and a failed unframe.
- `Framing` (`framing.dfy`): bytes, the boundary `frame`, the response
  content type, and one chunk of the feed: the boundary-delimiter line of
  section 5.1.1 of RFC 2046 (`--frame` CRLF), the header
  `Content-Type: image/jpeg`, an empty line, the JPEG bytes and CRLF.
  `Unframe` is its inverse.
- `Camera` (`camera.dfy`): the global `camera` as a `Device`. It is `Absent`
  when it is `None`, `Unopened` when it holds a capture object that did not
  open, and `Open` otherwise. `InitCamera` and `ReleaseCamera` model
  `init_camera` and `release_camera`. Every acquisition, release, device read
  and file write is an `Effect` in an ordered trace, including the reads the
  live feed makes. `Replay` re-runs a trace against a single
  handle and fails on a second open, or on a release or read of a handle that
  is not open.
- `Generator` (`stream.dfy`): `gen_frames`. `GenFrames` is the recursive
  definition, over a finite sequence of pull outcomes. `RunGenerator` is the
  same loop written pull by pull and proved equal to it.
- `Views` (`views.dfy`): the handlers as functions from `State`
  (device, session flag) to a `Step` (new state, response, effects). `Handle`
  dispatches a `Request` as the URL table does. `Serve` runs a sequence of
  requests one after the other. Between requests it keeps the session the
  framework would save: a response with status 500 or above does not save
  what the request wrote.

Hardware outcomes are inputs. A request carries whether the hardware open
would succeed, what the capture read would return, and what each pull of the
feed would meet. The pull outcomes are a failed read, a frame the JPEG
encoder rejects, or encoded bytes. A finite pull sequence that runs out
models the client disconnecting. Frames are opaque.

In four places the code behaves in a way that is easy to misread; the model
follows the code:

- A failed open leaves a capture object behind in the global (`Unopened`),
  not an empty slot. `stop_stream` releases only an open device, so an
  `Unopened` object stays as it is. It is never open, and the next
  `init_camera` replaces it.
- The generator never reads the streaming flag. It stops because the device
  is no longer open, and `stop_stream` is what makes the device not open.
- A failed open inside `start_stream` leaves the flag set to true in the
  request's session, because the flag is written first. A feed request that
  saw that session would try the hardware again. The request ends in a 500,
  though, so the flag is not saved, and the next request finds the session
  as it was before the start.
- The URL table does not restrict request methods. The request names
  (`PostCapture`, ...) carry no method check.

## Model

| member | source | states |
|---|---|---|
| Framing.PrefixIsLiteral | webcam_app/views.py:49 | the bytes before a frame are exactly `--frame\r\nContent-Type: image/jpeg\r\n\r\n` (37 bytes); the bytes after are CRLF; the prefix opens with `--` and the boundary named in the content type |
| Framing.Chunk | webcam_app/views.py:49 | a chunk is 39 bytes longer than its frame; it starts with the fixed prefix, ends with CRLF, and holds the frame in between |
| Framing.Unframe | webcam_app/views.py:49 | stripping prefix and suffix, when accepted, gives bytes that re-frame to the same chunk and are 39 bytes shorter |
| Framing.UnframeChunk | webcam_app/views.py:49 | stripping the framing off any chunk recovers exactly its frame |
| Framing.UnframeAcceptsOnlyChunks | webcam_app/views.py:49 | Unframe accepts a byte string if and only if it is the chunk of some frame |
| Framing.ChunkInjective | webcam_app/views.py:49 | two chunks are equal if and only if their frames are |
| Camera.InitCamera | webcam_app/views.py:14-22 | on an open device nothing is acquired and nothing changes; otherwise exactly one acquisition is attempted; it raises "Could not start camera." exactly when that open fails, leaving a handle that is not open; the device is open afterwards exactly when nothing was raised |
| Camera.ReleaseCamera | webcam_app/views.py:25-31 | an absent or unopened handle is left as it is with no effect; an open one is released once and the global becomes empty; the device is never open afterwards |
| Camera.InitIdempotent | webcam_app/views.py:16 | after a successful init, a second init is a no-op with no acquisition, whatever the hardware would do |
| Camera.InitRetriesAfterFailure | webcam_app/views.py:16-21 | after a failed init, the next init attempts acquisition again |
| Camera.ReleaseIdempotent | webcam_app/views.py:27-30 | a second release does nothing |
| Camera.ReplayAppend | webcam_app/views.py:11-31 | replaying two effect traces in turn is replaying their concatenation |
| Camera.ReplayReads | webcam_app/views.py:39 | any number of reads keep an open device open |
| Camera.LifecycleReplays | webcam_app/views.py:14-31 | init and release keep the single-handle discipline: what they do replays from the device they find to the device they leave |
| Generator.GenFrames | webcam_app/views.py:34-49 | the stream ends as not opened exactly when the device is not open, and then with no chunk and no read; it sends at most one chunk per pull, and only for pulls whose frame was encoded |
| Generator.StopsAtFirstFailure | webcam_app/views.py:35-49 | on an open device the chunks are exactly the framed JPEG bytes of the leading encoded pulls; the stream ends at the first failed read, at the first failed encode, or when the pulls run out, each if and only if that pull is the one met; it reads once per chunk plus once for the failing pull |
| Generator.RunGenerator | webcam_app/views.py:35-49 | the pull-by-pull loop sends the same stream, with the same end and read count, as the recursive definition |
| Generator.ChunksUnframe | webcam_app/views.py:44-49 | every chunk of a stream unwraps to the JPEG bytes of the pull that produced it |
| Generator.BodyLength | webcam_app/views.py:49 | the whole streamed body is the total size of the sent frames plus 39 bytes per chunk |
| Generator.BodyStartsWithPrefix | webcam_app/views.py:49 | a body that sends any chunk begins with `--frame\r\nContent-Type: image/jpeg\r\n\r\n` followed by the first frame's bytes |
| Generator.Reads | webcam_app/views.py:39-47 | a stream's device reads, in order: one successful read per chunk, then the failed read or the read whose frame was rejected; a failed read appears if and only if the stream ended on one, and only in last place |
| Generator.StreamReadsReplay | webcam_app/views.py:35-47 | a stream reads the device exactly as often as it counts, only while the device is open, and leaves the device as it found it |
| Generator.ReleasedDeviceStopsStream | webcam_app/views.py:36-38 | once the device has been released, a generator sends nothing more and reads nothing, whatever the hardware would do |
| Views.Status | webcam_app/views.py:74-76 | the page, the stopped text and the feed answer 200; a redirect answers 302; a failed capture answers its 500; an escaped exception answers 500 |
| Views.Flag | webcam_app/views.py:53 | a missing session value reads as false; a stored value reads as itself |
| Views.Index | webcam_app/views.py:52-54 | the page shows the flag; state and device are untouched |
| Views.VideoFeed | webcam_app/views.py:57-65 | the session is only read; with the flag unset or false it returns "Streaming is stopped." and leaves the device untouched; with the flag true it opens the device first; it returns a multipart stream exactly when the device ends open, and that stream never ends for want of an open device; the stream's reads follow the open in the effects; a failed open escapes as the camera error with nothing read |
| Views.Capture | webcam_app/views.py:68-76 | the device is opened as by init_camera; a failed open escapes as "Could not start camera." with nothing read; otherwise exactly one read follows; it redirects to the index if and only if the read succeeds, and then writes that frame to `captured_frame.jpg`; it answers 500 "Failed to capture frame" if and only if the read fails, and then writes nothing |
| Views.StartStream | webcam_app/views.py:79-82 | the flag is true afterwards even when the open fails; the device and effects are those of init_camera; it redirects exactly when the device ends open, and otherwise the camera error escapes |
| Views.StopStream | webcam_app/views.py:85-88 | the flag is false and the device is not open afterwards; a device that was not open is left as it was with no effect, an open one is released once; it always redirects to the index |
| Views.Handle | webcam_app/urls.py:4-10 | only start and stop write the session; the device changes only through a hardware effect; a file is written only by a capture whose read succeeded |
| Views.Kept | webcam_app/views.py:80-81 | the device is always the one the request left; the session is the one the request left when the status is below 500, and the one before the request otherwise |
| Views.Serve | webcam_app/views.py:52-88 | one response per request; a run without start or stop leaves the session as it was; a run with no hardware effect leaves the device as it was |
| Views.FeedReplays | webcam_app/views.py:57-63 | the feed opens the device and then reads it only while it is open |
| Views.HandleReplays | webcam_app/views.py:52-88 | every handler keeps the single-handle discipline from the device it finds to the device it leaves |
| Views.CaptureReplays | webcam_app/views.py:68-76 | capture reads only a device it holds open |
| Views.ServeReplays | webcam_app/views.py:11-88 | over any run of requests there is never a second open device, and never a release or read of a device that is not open, counting capture's read and every read of the feed; the device is open at the end exactly when the trace leaves it open |
| Views.FromStart | webcam_app/views.py:11 | from process start (no camera, empty session) the same holds, starting from a closed handle |
| Views.RepeatedStartsAcquireOnce | webcam_app/views.py:79-82 | for any run of start requests and any hardware outcomes: from an open device nothing is acquired; otherwise the failed opens are followed by one more attempt each, up to the first open that succeeds, and nothing is acquired after it; the device ends open exactly when it was open or some open succeeded, and the saved flag is then true; if every open failed, the saved session is unchanged |
| Views.FirstOpening | webcam_app/views.py:81 | the position of the first start whose open succeeds: every earlier open fails |
| Views.StartThenFeed | webcam_app/views.py:79-82 | from any state, a start whose open succeeds (or finds the device open) makes the next feed stream the framed frames of the pulls with the multipart content type, whatever the feed's own open would do; from process start, a successful start then a feed answer a redirect and then that stream |
| Views.StopThenFeed | webcam_app/views.py:85-88 | after a stop, the feed returns "Streaming is stopped." with no effect, and a generator already streaming sends nothing more |
| Views.FailedStartRetriedByFeed | webcam_app/views.py:79-82 | a start whose open fails raises the camera error and leaves the flag true in the request's session and an unopened handle; a feed request that saw that session would acquire again first |
| Views.FailedStartNotSaved | webcam_app/views.py:79-82 | from process start, a start whose open fails answers 500, so its flag is not saved; the next feed answers "Streaming is stopped." and does not touch the device |

## Left out

- OpenCV (`cv2.VideoCapture`, `read`, `imencode`, `imwrite`) is a foreign library. Each call is an input outcome or an `Effect`, and frames are opaque. JPEG encoding itself is not modelled.
- `isOpened` is neither an input nor an effect. It is read off `Device`, which assumes that an open capture stays open until `release_camera` releases it. A device that closes by itself (unplugged hardware) is not modelled.
- The device index is always 0 and is not represented.
- The result of `cv2.imwrite` is ignored by the source. The model records the write attempt and does not model whether the file system accepted it.
- Template rendering, redirect construction and HTTP transport are abstracted to a `Response` tag. The redirect is assumed to answer 302.
- An uncaught exception is modelled as `Crash`, which the framework turns into a 500.
- Session storage is out of the model beyond one rule. `Serve` does not save the session written by a request whose response has status 500 or above. Cookies, expiry and the storage backend are not modelled.
- Views.Flag: a stored session value is assumed to be a boolean. The source treats any truthy value as true.
- The generator is lazy and runs while the client pulls. The model is sequential: the device state is the one the handler leaves, and it does not change during the pulls. `ReleasedDeviceStopsStream` and `StopThenFeed` cover a release that happens between two pulls.
- Concurrency is left out. The source has no locks, so the model claims no serialization between requests.
- Logging is left out. It is side-channel output only.
- The `atexit` cleanup hook (webcam_app/views.py:91-95) is not modelled separately. It is one more call to `release_camera`, which is `Camera.ReleaseCamera`.
- The routing table in webcam_app/urls.py has no logic. `Views.Handle` dispatches the five requests in its place.
- Only one client session is represented. The device is global, but each client has its own session.

=== FILE: camera.dfy ===
/** The single process-wide capture device handle and the two functions that
    manage it, `init_camera` and `release_camera`. */
module Camera {
  import opened Wrappers

  /** The opaque pixel buffer one successful read produces. */
  datatype RawFrame = RawFrame(pixels: seq<int>)

  /** The global `camera`: no object at all, an object whose open failed, or
      an open device. */
  datatype Device = Absent | Unopened | Open

  /** What a call does to the hardware and the filesystem, in order. */
  datatype Effect =
    | Acquire(ok: bool)               // a fresh VideoCapture on device 0; ok when it opened
    | ReleaseHandle                   // camera.release()
    | ReadFrame(ok: bool)             // camera.read()
    | WriteImage(name: string, frame: RawFrame)

  /** The device after a call, what the call did, and the message of the
      exception it raised, if any. */
  datatype Outcome = Outcome(device: Device, effects: seq<Effect>, raised: Option<string>)

  const CouldNotStart: string := "Could not start camera."

  /** `init_camera`; `opens` says whether the hardware open would succeed. */
  function InitCamera(d: Device, opens: bool): (r: Outcome)
    // already open: nothing is acquired and nothing changes
    ensures d == Open ==> r == Outcome(Open, [], None)
    // otherwise exactly one acquisition is attempted
    ensures d != Open ==> r.effects == [Acquire(opens)]
    // it raises exactly when the attempted open fails ...
    ensures r.raised.Some? <==> d != Open && !opens
    ensures r.raised.Some? ==> r.raised.value == CouldNotStart
    // ... and the device is open exactly when it does not raise
    ensures r.device == Open <==> r.raised.None?
    // a failed open leaves a handle behind, but not an open one
    ensures r.raised.Some? ==> r.device == Unopened
  {
    if d != Open then
      if opens then Outcome(Open, [Acquire(true)], None)
      else Outcome(Unopened, [Acquire(false)], Some(CouldNotStart))
    else
      Outcome(Open, [], None)
  }

  /** `release_camera`. */
  function ReleaseCamera(d: Device): (r: Outcome)
    ensures r.raised == None
    // an absent or never-opened handle is left exactly as it is
    ensures d != Open ==> r.device == d && r.effects == []
    // an open handle is released once and dropped
    ensures d == Open ==> r.device == Absent && r.effects == [ReleaseHandle]
    ensures r.device != Open
  {
    if d == Open then Outcome(Absent, [ReleaseHandle], None)
    else Outcome(d, [], None)
  }

  /** A second `init_camera` after a successful one acquires nothing. */
  lemma InitIdempotent(d: Device, first: bool, second: bool)
    requires InitCamera(d, first).raised.None?
    ensures InitCamera(InitCamera(d, first).device, second) == Outcome(Open, [], None)
  {
  }

  /** After a failed `init_camera` the next one tries the hardware again. */
  lemma InitRetriesAfterFailure(d: Device, opens: bool)
    requires InitCamera(d, false).raised.Some?
    ensures InitCamera(InitCamera(d, false).device, opens).effects == [Acquire(opens)]
  {
  }

  /** `release_camera` twice is `release_camera` once. */
  lemma ReleaseIdempotent(d: Device)
    ensures ReleaseCamera(ReleaseCamera(d).device) == Outcome(ReleaseCamera(d).device, [], None)
  {
  }

  /** Replays an effect trace against a handle that starts open or closed,
      returning whether it ends open, or None if the trace ever acquires while
      open, or releases or reads while not open. A trace that replays is one
      with at most one live device at a time, no release of a device that is
      not held, and no read of one. */
  function Replay(open: bool, trace: seq<Effect>): Option<bool>
    decreases |trace|
  {
    if trace == [] then Some(open)
    else
      match trace[0]
      case Acquire(ok) => if open then None else Replay(ok, trace[1..])
      case ReleaseHandle => if open then Replay(false, trace[1..]) else None
      case ReadFrame(_) => if open then Replay(open, trace[1..]) else None
      case WriteImage(_, _) => Replay(open, trace[1..])
  }

  /** Replaying two traces one after the other is replaying their
      concatenation. */
  lemma {:induction false} ReplayAppend(open: bool, a: seq<Effect>, b: seq<Effect>)
    ensures Replay(open, a + b) ==
            (match Replay(open, a) case None => None case Some(o) => Replay(o, b))
    decreases |a|
  {
    if a == [] {
      assert a + b == b;
    } else {
      assert (a + b)[0] == a[0];
      assert (a + b)[1..] == a[1..] + b;
      match a[0]
      case Acquire(ok) => if !open { ReplayAppend(ok, a[1..], b); }
      case ReleaseHandle => if open { ReplayAppend(false, a[1..], b); }
      case ReadFrame(_) => if open { ReplayAppend(open, a[1..], b); }
      case WriteImage(_, _) => ReplayAppend(open, a[1..], b);
    }
  }

  /** Reads alone keep an open device open. */
  lemma {:induction false} ReplayReads(trace: seq<Effect>)
    requires forall i | 0 <= i < |trace| :: trace[i].ReadFrame?
    ensures Replay(true, trace) == Some(true)
    decreases |trace|
  {
    if trace != [] {
      ReplayReads(trace[1..]);
    }
  }

  /** Both lifecycle functions keep the handle discipline: replaying what
      they did takes the handle from the device they were given to the device
      they leave. */
  lemma LifecycleReplays(d: Device, opens: bool)
    ensures Replay(d == Open, InitCamera(d, opens).effects)
         == Some(InitCamera(d, opens).device == Open)
    ensures Replay(d == Open, ReleaseCamera(d).effects) == Some(ReleaseCamera(d).device == Open)
  {
  }
}

=== FILE: framing.dfy ===
/** The bytes of one part of the `multipart/x-mixed-replace` body that the
    live feed sends: a dash-boundary line, one header, a blank line, the JPEG
    bytes and a closing CRLF (section 5.1.1 of RFC 2046, boundary `frame`). */
module Framing {
  import opened Wrappers

  newtype byte = x: int | 0 <= x < 256

  type Bytes = seq<byte>

  /** Every character of `s` is 7-bit ASCII. */
  predicate IsAscii(s: string) {
    forall i | 0 <= i < |s| :: s[i] as int < 128
  }

  /** The ASCII encoding of `s`, one byte per character. */
  function Ascii(s: string): (r: Bytes)
    requires IsAscii(s)
    ensures |r| == |s|
  {
    seq(|s|, i requires 0 <= i < |s| => s[i] as int as byte)
  }

  const Boundary: string := "frame"
  const CRLF: string := "\r\n"

  /** The content type of the streaming response; its boundary parameter is
      the one every part below opens with. */
  const ContentType: string := "multipart/x-mixed-replace; boundary=" + Boundary

  const PartHeader: string := "Content-Type: image/jpeg"

  /** Everything before the frame bytes: `--frame`, CRLF, the part header,
      CRLF, and the empty line that ends the headers. */
  const PrefixText: string := "--" + Boundary + CRLF + PartHeader + CRLF + CRLF

  const Prefix: Bytes := Ascii(PrefixText)
  const Suffix: Bytes := Ascii(CRLF)

  /** Bytes a chunk adds around its frame. */
  const Overhead: nat := |Prefix| + |Suffix|

  /** The literal bytes the source yields before and after each frame. */
  lemma PrefixIsLiteral()
    ensures PrefixText == "--frame\r\nContent-Type: image/jpeg\r\n\r\n"
    ensures |Prefix| == 37 && |Suffix| == 2 && Overhead == 39
    ensures Prefix[..|"--" + Boundary|] == Ascii("--" + Boundary)
  {
    assert PrefixText == "--frame" + "\r\n" + "Content-Type: image/jpeg" + "\r\n" + "\r\n";
  }

  /** One part of the stream carrying `frame`. */
  function Chunk(frame: Bytes): (c: Bytes)
    ensures |c| == |frame| + Overhead
    ensures c[..|Prefix|] == Prefix
    ensures c[|Prefix|..|c| - |Suffix|] == frame
    ensures c[|c| - |Suffix|..] == Suffix
  {
    Prefix + frame + Suffix
  }

  /** Strips the fixed prefix and suffix off a chunk; None when `c` is not
      shaped like one. */
  function Unframe(c: Bytes): (r: Option<Bytes>)
    ensures r.Some? ==> Chunk(r.value) == c
    ensures r.Some? ==> |r.value| == |c| - Overhead
  {
    if |c| >= Overhead && c[..|Prefix|] == Prefix && c[|c| - |Suffix|..] == Suffix
    then Some(c[|Prefix|..|c| - |Suffix|])
    else None
  }

  /** Stripping the framing recovers exactly the frame that was wrapped. */
  lemma UnframeChunk(frame: Bytes)
    ensures Unframe(Chunk(frame)) == Some(frame)
  {
  }

  /** A byte string is a chunk exactly when Unframe accepts it. */
  lemma UnframeAcceptsOnlyChunks(c: Bytes)
    ensures Unframe(c).Some? <==> exists f :: Chunk(f) == c
  {
    if exists f :: Chunk(f) == c {
      var f :| Chunk(f) == c;
      UnframeChunk(f);
    }
  }

  /** Two different frames never produce the same chunk. */
  lemma ChunkInjective(a: Bytes, b: Bytes)
    ensures Chunk(a) == Chunk(b) <==> a == b
  {
    if Chunk(a) == Chunk(b) {
      UnframeChunk(a);
      UnframeChunk(b);
    }
  }
}

=== FILE: stream.dfy ===
/** `gen_frames`: the generator behind the live feed. Each pull checks the
    device, reads a frame, encodes it as JPEG and yields one chunk; the first
    closed device, failed read or failed encode ends the stream silently. */
module Generator {
  import opened Wrappers
  import opened Framing
  import opened Camera

  /** What one pull of the generator meets: a failed read, a read whose frame
      the encoder rejected, or a frame encoded to `jpeg`. */
  datatype Pull = ReadFails | EncodeFails | Encodes(jpeg: Bytes)

  /** Why the stream ended. `Disconnected` means the client stopped pulling
      (the finite sequence of pulls ran out) while the generator was still
      running. */
  datatype End = NotOpened | ReadFailed | EncodeFailed | Disconnected

  /** The chunks sent, why the stream ended, and how many reads it made. */
  datatype Stream = Stream(chunks: seq<Bytes>, end: End, readCount: nat)

  /** The first `n` pulls all yielded a frame. */
  ghost predicate AllEncoded(pulls: seq<Pull>, n: nat)
    requires n <= |pulls|
  {
    forall i | 0 <= i < n :: pulls[i].Encodes?
  }

  /** The stream a client sees when it pulls `pulls` from a generator started
      with the device in state `d`. The device is never changed. */
  function GenFrames(d: Device, pulls: seq<Pull>): (r: Stream)
    // a device that is not open yields nothing and is never read
    ensures r.end == NotOpened <==> d != Open
    ensures d != Open ==> r.chunks == [] && r.readCount == 0
    // at most one chunk per pull, and only for pulls that encoded a frame
    ensures |r.chunks| <= |pulls|
    ensures AllEncoded(pulls, |r.chunks|)
    decreases |pulls|
  {
    if d != Open then Stream([], NotOpened, 0)
    else if pulls == [] then Stream([], Disconnected, 0)
    else
      match pulls[0]
      case ReadFails => Stream([], ReadFailed, 1)
      case EncodeFails => Stream([], EncodeFailed, 1)
      case Encodes(jpeg) =>
        var rest := GenFrames(d, pulls[1..]);
        Stream([Chunk(jpeg)] + rest.chunks, rest.end, rest.readCount + 1)
  }

  /** The generator's `while True` loop, pull by pull: it sends the same
      stream as GenFrames. */
  method RunGenerator(d: Device, pulls: seq<Pull>) returns (s: Stream)
    ensures s == GenFrames(d, pulls)
  {
    var chunks: seq<Bytes> := [];
    var i := 0;
    while true
      invariant i <= |pulls|
      invariant d != Open ==> i == 0
      invariant |chunks| == i
      invariant GenFrames(d, pulls) == Resume(chunks, GenFrames(d, pulls[i..]))
      decreases |pulls| - i
    {
      var last: Stream;
      if d != Open {
        last := Stream([], NotOpened, 0);
      } else if i == |pulls| {
        last := Stream([], Disconnected, 0);
      } else if pulls[i] == ReadFails {
        last := Stream([], ReadFailed, 1);
      } else if pulls[i] == EncodeFails {
        last := Stream([], EncodeFailed, 1);
      } else {
        PullEncoded(d, pulls, i);
        ResumeResume(chunks, [Chunk(pulls[i].jpeg)], GenFrames(d, pulls[i + 1..]));
        chunks := chunks + [Chunk(pulls[i].jpeg)];
        i := i + 1;
        continue;
      }
      PullStops(d, pulls, i, last);
      s := Resume(chunks, last);
      break;
    }
  }

  /** GenFrames at a pull where the loop stops. */
  lemma PullStops(d: Device, pulls: seq<Pull>, i: nat, last: Stream)
    requires i <= |pulls|
    requires d != Open ==> last == Stream([], NotOpened, 0)
    requires d == Open && i == |pulls| ==> last == Stream([], Disconnected, 0)
    requires d == Open && i < |pulls| && pulls[i] == ReadFails ==> last == Stream([], ReadFailed, 1)
    requires d == Open && i < |pulls| && pulls[i] == EncodeFails ==>
               last == Stream([], EncodeFailed, 1)
    requires d == Open && i < |pulls| ==> !pulls[i].Encodes?
    ensures GenFrames(d, pulls[i..]) == last
  {
  }

  /** A stream that had already sent `sent` before continuing as `rest`. */
  function Resume(sent: seq<Bytes>, rest: Stream): Stream {
    Stream(sent + rest.chunks, rest.end, |sent| + rest.readCount)
  }

  /** What the stream is, pull by pull: the chunks are exactly the leading
      encoded frames, framed; the stream stops at the first failed read or
      encode, or when the client stops pulling; and it reads once per chunk
      plus once for the pull that failed. */
  lemma {:induction false} StopsAtFirstFailure(d: Device, pulls: seq<Pull>)
    requires d == Open
    ensures var r := GenFrames(d, pulls);
            && (forall i | 0 <= i < |r.chunks| :: r.chunks[i] == Chunk(pulls[i].jpeg))
            && (r.end == ReadFailed <==> |r.chunks| < |pulls| && pulls[|r.chunks|] == ReadFails)
            && (r.end == EncodeFailed <==> |r.chunks| < |pulls| && pulls[|r.chunks|] == EncodeFails)
            && (r.end == Disconnected <==> |r.chunks| == |pulls|)
            && r.readCount ==
                 |r.chunks| + (if r.end == ReadFailed || r.end == EncodeFailed then 1 else 0)
    decreases |pulls|
  {
    if pulls != [] && pulls[0].Encodes? {
      var rest := GenFrames(d, pulls[1..]);
      StopsAtFirstFailure(d, pulls[1..]);
      var r := GenFrames(d, pulls);
      assert r.chunks == [Chunk(pulls[0].jpeg)] + rest.chunks;
      forall i | 0 <= i < |r.chunks|
        ensures pulls[i].Encodes? && r.chunks[i] == Chunk(pulls[i].jpeg)
      {
        if i > 0 {
          assert pulls[1..][i - 1] == pulls[i];
        }
      }
      if |r.chunks| < |pulls| {
        assert pulls[1..][|rest.chunks|] == pulls[|r.chunks|];
      }
    }
  }

  /** Every chunk of the stream unwraps to the JPEG bytes of its pull. */
  lemma ChunksUnframe(d: Device, pulls: seq<Pull>)
    ensures var s := GenFrames(d, pulls);
            forall i | 0 <= i < |s.chunks| ::
              pulls[i].Encodes? && Unframe(s.chunks[i]) == Some(pulls[i].jpeg)
  {
    var s := GenFrames(d, pulls);
    if d == Open {
      StopsAtFirstFailure(d, pulls);
    }
    forall i | 0 <= i < |s.chunks|
      ensures pulls[i].Encodes? && Unframe(s.chunks[i]) == Some(pulls[i].jpeg)
    {
      UnframeChunk(pulls[i].jpeg);
    }
  }

  /** Unfolds GenFrames by one pull that encoded a frame. */
  lemma PullEncoded(d: Device, pulls: seq<Pull>, i: nat)
    requires d == Open && i < |pulls| && pulls[i].Encodes?
    ensures GenFrames(d, pulls[i..]) == Resume([Chunk(pulls[i].jpeg)], GenFrames(d, pulls[i + 1..]))
  {
    assert pulls[i..][1..] == pulls[i + 1..];
  }

  lemma ResumeResume(a: seq<Bytes>, b: seq<Bytes>, rest: Stream)
    ensures Resume(a, Resume(b, rest)) == Resume(a + b, rest)
  {
  }

  /** The device reads a stream made, in order: a successful read for every
      chunk, then the read that failed, or the successful read whose frame
      the encoder rejected. */
  function Reads(s: Stream): (r: seq<Effect>)
    ensures forall i | 0 <= i < |r| :: r[i].ReadFrame?
    ensures |r| == |s.chunks| + (if s.end == ReadFailed || s.end == EncodeFailed then 1 else 0)
    ensures ReadFrame(false) in r <==> s.end == ReadFailed
    // a successful read for each chunk, in order ...
    ensures forall i | 0 <= i < |s.chunks| :: r[i] == ReadFrame(true)
    // ... then the read the stream stopped on, failed only if the read failed
    ensures |r| > |s.chunks| ==> r[|s.chunks|] == ReadFrame(s.end == EncodeFailed)
  {
    seq(|s.chunks|, _ => ReadFrame(true))
    + match s.end
      case ReadFailed => [ReadFrame(false)]
      case EncodeFailed => [ReadFrame(true)]
      case _ => []
  }

  /** The reads of a stream are exactly as many as it counts, and they replay
      from the device it ran on back to that device: a generator reads only
      while the device is open and never changes it. */
  lemma StreamReadsReplay(d: Device, pulls: seq<Pull>)
    ensures |Reads(GenFrames(d, pulls))| == GenFrames(d, pulls).readCount
    ensures Replay(d == Open, Reads(GenFrames(d, pulls))) == Some(d == Open)
  {
    if d == Open {
      StopsAtFirstFailure(d, pulls);
      ReplayReads(Reads(GenFrames(d, pulls)));
    }
  }

  /** The whole body the client receives: the chunks back to back. */
  function Body(chunks: seq<Bytes>): (b: Bytes)
    ensures chunks != [] ==> |chunks[0]| <= |b| && b[..|chunks[0]|] == chunks[0]
    decreases |chunks|
  {
    if chunks == [] then [] else chunks[0] + Body(chunks[1..])
  }

  /** The first bytes on the wire: the boundary line, the part header and
      the blank line, then the first frame. */
  lemma BodyStartsWithPrefix(d: Device, pulls: seq<Pull>)
    requires GenFrames(d, pulls).chunks != []
    ensures var b := Body(GenFrames(d, pulls).chunks);
            && |Prefix| + |pulls[0].jpeg| <= |b|
            && b[..|Prefix|] == Prefix
            && b[|Prefix|..|Prefix| + |pulls[0].jpeg|] == pulls[0].jpeg
  {
    var s := GenFrames(d, pulls);
    StopsAtFirstFailure(d, pulls);
    var c := s.chunks[0];
    assert c == Chunk(pulls[0].jpeg);
    var b := Body(s.chunks);
    assert b[..|c|][..|Prefix|] == b[..|Prefix|];
    var n := |Prefix| + |pulls[0].jpeg|;
    assert b[..|c|][|Prefix|..n] == b[|Prefix|..n];
  }

  /** Sum of the frame sizes of the leading encoded pulls. */
  function FrameBytes(pulls: seq<Pull>, n: nat): nat
    requires n <= |pulls|
    requires AllEncoded(pulls, n)
  {
    if n == 0 then 0 else FrameBytes(pulls, n - 1) + |pulls[n - 1].jpeg|
  }

  /** The body is the frames plus 39 bytes of framing per chunk. */
  lemma {:induction false} BodyLength(d: Device, pulls: seq<Pull>)
    ensures var s := GenFrames(d, pulls);
            |Body(s.chunks)| == FrameBytes(pulls, |s.chunks|) + Overhead * |s.chunks|
  {
    var s := GenFrames(d, pulls);
    if d == Open {
      StopsAtFirstFailure(d, pulls);
    }
    BodyLengthOf(pulls, s.chunks, |s.chunks|);
  }

  lemma {:induction false} BodyLengthOf(pulls: seq<Pull>, chunks: seq<Bytes>, n: nat)
    requires n == |chunks| <= |pulls|
    requires AllEncoded(pulls, n)
    requires forall i | 0 <= i < n :: chunks[i] == Chunk(pulls[i].jpeg)
    ensures |Body(chunks)| == FrameBytes(pulls, n) + Overhead * n
    decreases n
  {
    PrefixIsLiteral();
    if n > 0 {
      var last := chunks[..n - 1];
      BodyLengthOf(pulls, last, n - 1);
      BodyAppend(last, chunks[n - 1]);
      assert last + [chunks[n - 1]] == chunks;
    }
  }

  lemma {:induction false} BodyAppend(chunks: seq<Bytes>, c: Bytes)
    ensures Body(chunks + [c]) == Body(chunks) + c
    decreases |chunks|
  {
    if chunks == [] {
      assert Body([c]) == c + Body([]);
    } else {
      assert (chunks + [c])[1..] == chunks[1..] + [c];
      BodyAppend(chunks[1..], c);
    }
  }

  /** Once the device has been released, a generator still attached to a
      client sends nothing more, whatever the hardware would have done. */
  lemma ReleasedDeviceStopsStream(d: Device, pulls: seq<Pull>)
    ensures GenFrames(ReleaseCamera(d).device, pulls) == Stream([], NotOpened, 0)
  {
  }
}

=== FILE: views.dfy ===
/** The five request handlers over the pair (session `streaming` flag,
    global device), and a run of requests one after another. */
module Views {
  import opened Wrappers
  import opened Framing
  import opened Camera
  import opened Generator

  /** What the handlers read and write: the global device and one client's
      session value under the key "streaming" (None when never set). */
  datatype State = State(device: Device, streaming: Option<bool>)

  /** The process as it starts: no camera object, an empty session. */
  const Initial: State := State(Absent, None)

  /** The response a handler returns, abstracted from its rendering. */
  datatype Response =
    | Page(streaming: bool)                          // index.html rendered with the flag
    | Feed(contentType: string, stream: Stream)      // the streaming multipart response
    | Text(status: nat, text: string)                // a plain HttpResponse
    | Redirect(target: string)                       // redirect to a named URL
    | Crash(message: string)                         // an exception escaped the handler

  /** The HTTP status the framework sends for a response. */
  function Status(r: Response): (code: nat)
    ensures r.Page? || r.Feed? ==> code == 200
    ensures r.Redirect? ==> code == 302
    ensures r.Text? ==> code == r.status
    ensures r.Crash? ==> code == 500
  {
    match r
    case Page(_) => 200
    case Feed(_, _) => 200
    case Text(status, _) => status
    case Redirect(_) => 302
    case Crash(_) => 500
  }

  /** The state after a request, the response, and the effects in order. */
  datatype Step = Step(state: State, response: Response, effects: seq<Effect>)

  /** What one read of the device during `capture` returns. */
  datatype CaptureRead = CaptureFails | Captured(frame: RawFrame)

  const StoppedText: string := "Streaming is stopped."
  const CaptureFailedText: string := "Failed to capture frame"
  const CaptureFile: string := "captured_frame.jpg"
  const IndexRoute: string := "index"

  /** `request.session.get("streaming", False)`. */
  function Flag(s: State): (b: bool)
    ensures s.streaming == None ==> !b
    ensures s.streaming.Some? ==> b == s.streaming.value
  {
    s.streaming.GetOr(false)
  }

  /** `index`: renders the page with the flag and touches nothing. */
  function Index(s: State): (r: Step)
    ensures r.state == s && r.effects == []
    ensures r.response.Page? && r.response.streaming == Flag(s)
    ensures Status(r.response) == 200
  {
    Step(s, Page(Flag(s)), [])
  }

  /** `video_feed`. `opens` is the outcome of the hardware open if one is
      attempted; `pulls` are what the client's pulls of the generator meet. */
  function VideoFeed(s: State, opens: bool, pulls: seq<Pull>): (r: Step)
    // the session is only read
    ensures r.state.streaming == s.streaming
    // flag unset or false: the stopped text, and the device is not touched
    ensures !Flag(s) ==> r == Step(s, Text(200, StoppedText), [])
    // flag true: the device is opened first, at most one acquisition
    ensures Flag(s) ==> InitCamera(s.device, opens).effects <= r.effects
    ensures Flag(s) ==> r.state.device == InitCamera(s.device, opens).device
    // a stream is returned exactly when the device ends up open ...
    ensures r.response.Feed? <==> Flag(s) && r.state.device == Open
    ensures r.response.Feed? ==> r.response.contentType == ContentType
    // ... so the stream never ends for want of an open device
    ensures r.response.Feed? ==> r.response.stream.end != NotOpened
    ensures r.response.Feed? ==> r.response.stream == GenFrames(Open, pulls)
    // the stream then reads the device once per pull it makes, and nothing else happens
    ensures r.response.Feed? ==>
      r.effects == InitCamera(s.device, opens).effects + Reads(r.response.stream)
    ensures r.response.Crash? ==> r.effects == InitCamera(s.device, opens).effects
    // a failed open escapes as the camera error
    ensures r.response.Crash? <==> Flag(s) && s.device != Open && !opens
    ensures r.response.Crash? ==> r.response.message == CouldNotStart
  {
    if Flag(s) then
      var init := InitCamera(s.device, opens);
      var s' := s.(device := init.device);
      match init.raised
      case Some(message) => Step(s', Crash(message), init.effects)
      case None =>
        var stream := GenFrames(s'.device, pulls);
        Step(s', Feed(ContentType, stream), init.effects + Reads(stream))
    else
      Step(s, Text(200, StoppedText), [])
  }

  /** `capture`. `opens` is the outcome of the hardware open if one is
      attempted; `read` is what the single read returns. */
  function Capture(s: State, opens: bool, read: CaptureRead): (r: Step)
    ensures r.state.streaming == s.streaming
    // the device is opened if needed, as by init_camera
    ensures r.state.device == InitCamera(s.device, opens).device
    ensures InitCamera(s.device, opens).effects <= r.effects
    // a failed open escapes as the camera error and nothing is read
    ensures r.response.Crash? <==> InitCamera(s.device, opens).raised.Some?
    ensures r.response.Crash? ==> r.response == Crash(CouldNotStart)
    ensures r.response.Crash? ==> r.effects == InitCamera(s.device, opens).effects
    // otherwise exactly one read ...
    ensures !r.response.Crash? ==>
      |InitCamera(s.device, opens).effects| < |r.effects| &&
      r.effects[|InitCamera(s.device, opens).effects|] == ReadFrame(read.Captured?)
    // ... a successful one writes the frame and redirects to the index
    ensures r.response == Redirect(IndexRoute) <==> !r.response.Crash? && read.Captured?
    ensures r.response.Redirect? ==>
      && read.Captured?
      && r.effects == InitCamera(s.device, opens).effects
                      + [ReadFrame(true), WriteImage(CaptureFile, read.frame)]
    // ... a failed one is a 500 and writes nothing
    ensures r.response == Text(500, CaptureFailedText) <==> !r.response.Crash? && read.CaptureFails?
    ensures r.response.Text? ==>
      r.effects == InitCamera(s.device, opens).effects + [ReadFrame(false)]
    ensures Status(r.response) == 500 <==> !r.response.Redirect?
  {
    var init := InitCamera(s.device, opens);
    var s' := s.(device := init.device);
    match init.raised
    case Some(message) => Step(s', Crash(message), init.effects)
    case None =>
      match read
      case Captured(frame) =>
        var effects := init.effects + [ReadFrame(true), WriteImage(CaptureFile, frame)];
        Step(s', Redirect(IndexRoute), effects)
      case CaptureFails =>
        Step(s', Text(500, CaptureFailedText), init.effects + [ReadFrame(false)])
  }

  /** `start_stream`: the flag is set before the device is opened. */
  function StartStream(s: State, opens: bool): (r: Step)
    // the flag is true afterwards, even when the open fails
    ensures r.state.streaming == Some(true)
    ensures r.state.device == InitCamera(s.device, opens).device
    ensures r.effects == InitCamera(s.device, opens).effects
    ensures r.response == Redirect(IndexRoute) <==> r.state.device == Open
    ensures r.response != Redirect(IndexRoute) ==> r.response == Crash(CouldNotStart)
  {
    var s' := s.(streaming := Some(true));
    var init := InitCamera(s'.device, opens);
    match init.raised
    case Some(message) => Step(s'.(device := init.device), Crash(message), init.effects)
    case None => Step(s'.(device := init.device), Redirect(IndexRoute), init.effects)
  }

  /** `stop_stream`: clears the flag and releases the device. */
  function StopStream(s: State): (r: Step)
    ensures r.state.streaming == Some(false)
    ensures r.state.device != Open
    // a device that was not open is left as it was, and nothing happens to it
    ensures s.device != Open ==> r.state.device == s.device && r.effects == []
    ensures s.device == Open ==> r.effects == [ReleaseHandle]
    ensures r.response == Redirect(IndexRoute)
  {
    var s' := s.(streaming := Some(false));
    var release := ReleaseCamera(s'.device);
    Step(s'.(device := release.device), Redirect(IndexRoute), release.effects)
  }

  /** One request, with the hardware outcomes it would meet. */
  datatype Request =
    | GetIndex
    | GetVideoFeed(opens: bool, pulls: seq<Pull>)
    | PostCapture(opens: bool, read: CaptureRead)
    | PostStartStream(opens: bool)
    | PostStopStream

  /** The URL table: each request to its handler. */
  function Handle(s: State, req: Request): (r: Step)
    // only start and stop write the session
    ensures r.state.streaming != s.streaming ==> req.PostStartStream? || req.PostStopStream?
    // the device changes only through an effect on the hardware
    ensures r.effects == [] ==> r.state.device == s.device
    // only capture writes a file, and only after a successful read
    ensures forall i | 0 <= i < |r.effects| :: r.effects[i].WriteImage? ==>
              req.PostCapture? && req.read.Captured? && r.response == Redirect(IndexRoute)
  {
    match req
    case GetIndex => Index(s)
    case GetVideoFeed(opens, pulls) => VideoFeed(s, opens, pulls)
    case PostCapture(opens, read) => Capture(s, opens, read)
    case PostStartStream(opens) => StartStream(s, opens)
    case PostStopStream => StopStream(s)
  }

  /** The final state, the responses and the effect trace of a run. */
  datatype Run = Run(state: State, responses: seq<Response>, effects: seq<Effect>)

  /** The session the framework keeps after a step: the one the handler
      left, unless the response is a server error, in which case the session
      written during the request is not saved. */
  function Kept(before: State, step: Step): (s: State)
    ensures s.device == step.state.device
    ensures Status(step.response) < 500 ==> s.streaming == step.state.streaming
    ensures Status(step.response) >= 500 ==> s.streaming == before.streaming
  {
    if Status(step.response) < 500 then step.state
    else step.state.(streaming := before.streaming)
  }

  /** No request in `reqs` is a start or a stop. */
  ghost predicate ReadsSessionOnly(reqs: seq<Request>) {
    forall i | 0 <= i < |reqs| :: !reqs[i].PostStartStream? && !reqs[i].PostStopStream?
  }

  /** Serves `reqs` one after the other from `s`. */
  function Serve(s: State, reqs: seq<Request>): (r: Run)
    ensures |r.responses| == |reqs|
    // requests that neither start nor stop leave the session as it was
    ensures ReadsSessionOnly(reqs) ==> r.state.streaming == s.streaming
    // a run that touches no hardware leaves the device as it was
    ensures r.effects == [] ==> r.state.device == s.device
    decreases |reqs|
  {
    if reqs == [] then Run(s, [], [])
    else
      var first := Handle(s, reqs[0]);
      var rest := Serve(Kept(s, first), reqs[1..]);
      Run(rest.state, [first.response] + rest.responses, first.effects + rest.effects)
  }

  /** Every handler keeps the handle discipline: what it does to the hardware
      replays from the device it found to the device it leaves. */
  lemma HandleReplays(s: State, req: Request)
    ensures Replay(s.device == Open, Handle(s, req).effects)
         == Some(Handle(s, req).state.device == Open)
  {
    match req
    case GetIndex =>
    case GetVideoFeed(opens, pulls) => FeedReplays(s, opens, pulls);
    case PostCapture(opens, read) => CaptureReplays(s, opens, read);
    case PostStartStream(opens) => LifecycleReplays(s.device, opens);
    case PostStopStream => LifecycleReplays(s.device, false);
  }

  /** `video_feed` opens the device and the stream reads only while it is
      open. */
  lemma FeedReplays(s: State, opens: bool, pulls: seq<Pull>)
    ensures Replay(s.device == Open, VideoFeed(s, opens, pulls).effects)
         == Some(VideoFeed(s, opens, pulls).state.device == Open)
  {
    LifecycleReplays(s.device, opens);
    var r := VideoFeed(s, opens, pulls);
    if r.response.Feed? {
      var init := InitCamera(s.device, opens);
      StreamReadsReplay(Open, pulls);
      ReplayAppend(s.device == Open, init.effects, Reads(GenFrames(Open, pulls)));
    }
  }

  /** `capture` reads only a device it holds open. */
  lemma CaptureReplays(s: State, opens: bool, read: CaptureRead)
    ensures Replay(s.device == Open, Capture(s, opens, read).effects)
         == Some(Capture(s, opens, read).state.device == Open)
  {
    var init := InitCamera(s.device, opens);
    LifecycleReplays(s.device, opens);
    if init.raised.None? {
      var effects := Capture(s, opens, read).effects;
      var tail := effects[|init.effects|..];
      assert effects == init.effects + tail;
      assert Replay(true, tail) == Some(true) by {
        if read.Captured? {
          assert tail == [ReadFrame(true), WriteImage(CaptureFile, read.frame)];
          assert tail[1..] == [WriteImage(CaptureFile, read.frame)];
          assert Replay(true, tail[1..]) == Replay(true, []);
        } else {
          assert tail == [ReadFrame(false)];
          assert tail[1..] == [];
        }
      }
      ReplayAppend(s.device == Open, init.effects, tail);
    }
  }

  /** Any run keeps the handle discipline: there is never a second open
      device, no release or read of a device that is not open, and the device
      is open at the end exactly when the trace leaves it open. */
  lemma {:induction false} ServeReplays(s: State, reqs: seq<Request>)
    ensures Replay(s.device == Open, Serve(s, reqs).effects)
         == Some(Serve(s, reqs).state.device == Open)
    decreases |reqs|
  {
    if reqs != [] {
      var first := Handle(s, reqs[0]);
      HandleReplays(s, reqs[0]);
      ServeReplays(Kept(s, first), reqs[1..]);
      ReplayAppend(s.device == Open, first.effects, Serve(Kept(s, first), reqs[1..]).effects);
    }
  }

  /** From process start, the device is open at the end of any run exactly
      when the effect trace leaves one live handle. */
  lemma FromStart(reqs: seq<Request>)
    ensures Replay(false, Serve(Initial, reqs).effects)
         == Some(Serve(Initial, reqs).state.device == Open)
  {
    ServeReplays(Initial, reqs);
  }

  /** The index of the first start in `reqs` whose open would succeed, or
      `|reqs|` when none would. */
  function FirstOpening(reqs: seq<Request>): (k: nat)
    requires forall i | 0 <= i < |reqs| :: reqs[i].PostStartStream?
    ensures k <= |reqs|
    ensures forall i | 0 <= i < k :: !reqs[i].opens
    ensures k < |reqs| ==> reqs[k].opens
    decreases |reqs|
  {
    if reqs == [] || reqs[0].opens then 0 else 1 + FirstOpening(reqs[1..])
  }

  /** Any run of start requests acquires an open device at most once: from an
      open device nothing is acquired; otherwise every failed open is followed
      by another attempt, up to the first open that succeeds, and after it
      nothing more is acquired. The device ends open exactly when it was open
      or some open succeeded, and the saved flag is then true; if every open
      failed, the 500 responses left the saved session as it was. */
  lemma {:induction false} RepeatedStartsAcquireOnce(s: State, reqs: seq<Request>)
    requires forall i | 0 <= i < |reqs| :: reqs[i].PostStartStream?
    ensures var k := FirstOpening(reqs);
            Serve(s, reqs).effects ==
              if s.device == Open then []
              else seq(k, _ => Acquire(false)) + (if k < |reqs| then [Acquire(true)] else [])
    ensures var k := FirstOpening(reqs);
            Serve(s, reqs).state.device == Open <==> s.device == Open || k < |reqs|
    ensures var k := FirstOpening(reqs);
            Serve(s, reqs).state.streaming ==
              if (s.device == Open && reqs != []) || k < |reqs| then Some(true) else s.streaming
    decreases |reqs|
  {
    if reqs != [] {
      var first := Handle(s, reqs[0]);
      RepeatedStartsAcquireOnce(Kept(s, first), reqs[1..]);
      var k := FirstOpening(reqs);
      if s.device != Open && !reqs[0].opens {
        assert FirstOpening(reqs[1..]) == k - 1;
        assert seq(k, _ => Acquire(false)) == [Acquire(false)] + seq(k - 1, _ => Acquire(false));
      }
    }
  }

  /** Starting, then opening the feed, streams the frames the pulls encode. */
  lemma StartThenFeed(s: State, opens: bool, pulls: seq<Pull>)
    ensures var after := StartStream(s, true).state;
            VideoFeed(after, opens, pulls).response == Feed(ContentType, GenFrames(Open, pulls))
    ensures Serve(Initial, [PostStartStream(true), GetVideoFeed(opens, pulls)]).responses
            == [Redirect(IndexRoute), Feed(ContentType, GenFrames(Open, pulls))]
  {
    var reqs := [PostStartStream(true), GetVideoFeed(opens, pulls)];
    var first := Handle(Initial, reqs[0]);
    assert Kept(Initial, first) == State(Open, Some(true));
    assert reqs[1..] == [GetVideoFeed(opens, pulls)];
    assert reqs[1..][1..] == [];
  }

  /** Stopping, then opening the feed, gives the stopped text and leaves the
      device alone; a generator that was already streaming sends nothing more. */
  lemma StopThenFeed(s: State, opens: bool, pulls: seq<Pull>)
    ensures var after := StopStream(s).state;
            VideoFeed(after, opens, pulls) == Step(after, Text(200, StoppedText), [])
            && GenFrames(after.device, pulls).chunks == []
  {
  }

  /** When the open fails during `start_stream` the flag is already set in
      the request's session, and a feed request that saw that session would
      try the hardware again. */
  lemma FailedStartRetriedByFeed(s: State, opens: bool, pulls: seq<Pull>)
    requires s.device != Open
    ensures var after := StartStream(s, false);
            && after.response == Crash(CouldNotStart)
            && after.state == State(Unopened, Some(true))
            && VideoFeed(after.state, opens, pulls).effects != []
            && VideoFeed(after.state, opens, pulls).effects[0] == Acquire(opens)
  {
  }

  /** The failed start answers 500, so its flag is not saved: from process
      start, the next feed request still finds the flag unset and answers
      that streaming is stopped, without touching the device. */
  lemma FailedStartNotSaved(opens: bool, pulls: seq<Pull>)
    ensures var run := Serve(Initial, [PostStartStream(false), GetVideoFeed(opens, pulls)]);
            && run.responses == [Crash(CouldNotStart), Text(200, StoppedText)]
            && run.effects == [Acquire(false)]
            && run.state == State(Unopened, None)
  {
    var reqs := [PostStartStream(false), GetVideoFeed(opens, pulls)];
    assert reqs[1..] == [GetVideoFeed(opens, pulls)];
    assert reqs[1..][1..] == [];
    var first := Handle(Initial, reqs[0]);
    assert first.effects == [Acquire(false)];
    assert Kept(Initial, first) == State(Unopened, None);
    var stopped := Step(State(Unopened, None), Text(200, StoppedText), []);
    assert Handle(State(Unopened, None), reqs[1]) == stopped;
    var second := Serve(State(Unopened, None), reqs[1..]);
    var feed := Handle(State(Unopened, None), reqs[1..][0]);
    assert feed.effects == [];
    assert Serve(Kept(State(Unopened, None), feed), reqs[1..][1..]).effects == [];
    assert second.effects == [];
    assert Serve(Initial, reqs).effects == first.effects + second.effects;
  }
}

=== FILE: wrappers.dfy ===
/** The usual Some/None datatype, used for the session value that may be
    missing, for an exception that may have been raised, and for a parse that
    may fail. */
module Wrappers {

  datatype Option<+T> = None | Some(value: T) {

    /** Returns the value inside Some, or `default` when None. */
    function GetOr(default: T): T {
      match this
      case Some(v) => v
      case None => default
    }
  }
}
